=== FILE: README.md ===
# Mailbox manager model

A Dafny model of `MailboxManager`, the end-to-end-encrypted mailbox module of
a peer-to-peer messaging client built on the Textile hub. Each user owns one
mailbox whose thread has two partitions: `inbox` (messages received) and
`sentbox` (messages sent). The manager does three things, and the model covers
all three:

- **Conversation retrieval** (`getConversation`). It fetches one page of the
  counterpart's inbox messages, newest id first. It takes a time range from the
  two ends of that page and fetches the sentbox messages to the counterpart in
  that range. It merges the two results by creation time and decodes each
  message in place.
- **Record transcoding** (`userMessageToThread`, `decodeMessage`). It renames
  fields between the hub's `UserMessage` and the thread-database document. It
  opens the base64, encrypted JSON body.
- **Subscription lifecycle** (constructor, `init`, `listenTo*`,
  `buildCallback`, `isSubscribed`, `isInitialized`). Each channel has at most
  one listener slot. Listening fills the slot. When the hub closes a
  subscription, the callback deletes its channel's slot.

Modules, one per component:

- `Wrappers` (`wrappers.dfy`): `Option` and `Result`.
- `Messages` (`messages.dfy`): the three message shapes and `Codec`. `Codec`
  bundles the opaque byte transforms as function-valued fields: base64, private-key
  decryption, UTF-8 decoding and `JSON.parse`. Nothing is assumed about them
  beyond their types.
- `Ordering` (`ordering.dfy`): the store's id order, which is lexicographic
  order on id strings, and the merge's creation-time order. It also holds a
  stable insertion sort, proved sorted, a permutation of its input, and
  stable.
- `Store` (`store.dfy`): a thread-database query is a list of conditions, an
  optional order, `skipNum` and `limitTo`. `Find` selects, orders, skips and
  limits.
- `Conversation` (`conversation.dfy`): `getConversation` and its properties.
- `MailboxManager` (`manager.dfy`): the manager's state, its transitions and
  the push-event handler.

Callbacks are modelled as tokens. Each `buildCallback` call mints a fresh
token, kept together with the channel its closure handler deletes and the
caller's `onMessage` handler. This makes it possible to state that a replaced
(stale) callback's closure still deletes the newer registration.

An empty inbox page makes both time bounds `0`. Without a positive `skip`
the sentbox query then accepts every message to the counterpart created at or
after `0` (`Conversation.EmptyWindowOpensSentbox`). With a positive `skip` it
also asks for `created_at < 0`, so paging past the last inbox message gives
an empty sentbox part and an empty conversation
(`Conversation.PagingPastTheEndIsEmpty`).

Time-range pagination is approximate.
`Conversation.SentBetweenPagesIsOnNeitherPage` states the gap. A sent message
created after the newest inbox message of a later page, but before the oldest
inbox message of an earlier first page, is on neither page.

## Model

| member | source | states |
|---|---|---|
| Messages.DecodeMessage | libraries/Textile/MailboxManager.ts:196-211 | the decoded message carries `_id`, `from`, `read_at` and `created_at` (as `sent`), and its body is the JSON parsed from the UTF-8 text of the decrypted base64 body; it rejects with DecryptionFailure exactly when the key cannot open the body, and with MalformedPayload exactly when the opened text is not JSON |
| Messages.UserMessageToThread | libraries/Textile/MailboxManager.ts:239-251 | the document keeps id, sender, recipient, creation and read time under the database's names, its body and signature are the base64 encodings of the hub's bytes, and its `_mod` equals its `created_at` |
| Messages.TranscodeRoundTrip | libraries/Textile/MailboxManager.ts:203-210 | converting a hub message to a document and decoding it gives back the original id, sender, read time and creation time (as `sent`) whenever the body decodes |
| Messages.DecodeDependsOnlyOnBody | libraries/Textile/MailboxManager.ts:204-208 | whether a pushed message decodes, the payload it decodes to and the error it fails with depend on its body bytes alone |
| Ordering.LexLeqTotal | libraries/Textile/MailboxManager.ts:76 | any two document ids are comparable in the id order |
| Ordering.LexLeqTransitive | libraries/Textile/MailboxManager.ts:76 | the id order is transitive |
| Ordering.LexLeqAntisymmetric | libraries/Textile/MailboxManager.ts:76 | two ids the order ties are equal, so ordering by id leaves no ties |
| Ordering.Insert | libraries/Textile/MailboxManager.ts:111-113 | inserting into a sorted sequence gives a sorted sequence holding exactly one more copy of the new element |
| Ordering.Sort | libraries/Textile/MailboxManager.ts:111-113 | the result is sorted by the order and is a permutation of the input |
| Ordering.SortIsStable | libraries/Textile/MailboxManager.ts:111-113 | elements the order ties keep their relative input order, as a stable `Array.prototype.sort` does |
| Ordering.SortIsStableEverywhere | libraries/Textile/MailboxManager.ts:111-113 | for every element, the elements tied with it appear in the sorted result in their input order |
| Ordering.UniqueIdsLeaveNoTies | libraries/Textile/MailboxManager.ts:76 | among documents with distinct ids, ordering by id ties no two different documents |
| Ordering.SortedPermutationsAgree | libraries/Textile/MailboxManager.ts:76 | when the order ties no two different elements, two sorted permutations of the same elements are equal, so an id-ordered result is unique |
| Store.Select | libraries/Textile/MailboxManager.ts:86-90 | each document is kept as often as it is stored if every condition accepts it, and dropped otherwise |
| Store.Paginate | libraries/Textile/MailboxManager.ts:78-84 | the page is the contiguous run after the skipped documents, of the size skip and limit leave |
| Store.Find | libraries/Textile/MailboxManager.ts:86-90 | the result holds only stored documents the query accepts, is sorted when the query orders, and has as many elements as skip and limit leave of the accepted ones; it is the run after the skipped documents of some arrangement of all accepted documents in the query's order; unbounded, it is a permutation of them |
| Conversation.InboxQuerySelects | libraries/Textile/MailboxManager.ts:76 | the inbox query accepts a message iff it is from the counterpart |
| Conversation.InboxWindowSpec | libraries/Textile/MailboxManager.ts:76-90 | the inbox page holds only the counterpart's stored messages, newest id first, sized by the truthy skip and limit, and is the run after the skipped ones of a newest-first arrangement of all the counterpart's messages |
| Conversation.InboxWindowIsDetermined | libraries/Textile/MailboxManager.ts:76-90 | with distinct document ids, every newest-first arrangement of the counterpart's messages has the inbox page as its run after the skipped ones |
| Conversation.FirstPageHoldsNewest | libraries/Textile/MailboxManager.ts:76-90 | without a skip, every message from the counterpart left off the page has an id no higher, in the id order, than every message on it |
| Conversation.LeadingRunIsNewest | libraries/Textile/MailboxManager.ts:76 | the unskipped page of a newest-first arrangement outranks, by id, every arranged message not on it |
| Conversation.FalsyHintsAreIgnored | libraries/Textile/MailboxManager.ts:78-84 | an absent query, an absent hint and a hint of 0 all give the same inbox query |
| Conversation.BoundsBracketTimeOrderedWindow | libraries/Textile/MailboxManager.ts:92-94 | when the page is also newest-first in time, `firstMessageTime` and `lastMessageTime` bracket every creation time on it |
| Conversation.BoundsArePositional | libraries/Textile/MailboxManager.ts:92-94 | the bounds come from the page's ends and not from a minimum and maximum: there is an id-ordered page with a message created after `lastMessageTime` |
| Conversation.SentboxQuerySelects | libraries/Textile/MailboxManager.ts:96-103 | a sent message is accepted iff it is to the counterpart, created at or after `firstMessageTime`, and, only when skip is positive, before `lastMessageTime` |
| Conversation.SentWindowSpec | libraries/Textile/MailboxManager.ts:96-109 | the sentbox part is a permutation of the accepted stored messages, all to the counterpart and inside the page's time range |
| Conversation.EmptyWindowOpensSentbox | libraries/Textile/MailboxManager.ts:92-99 | with an empty inbox page and no positive skip, the sentbox query accepts exactly the messages to the counterpart created at or after 0 |
| Conversation.PagingPastTheEndIsEmpty | libraries/Textile/MailboxManager.ts:82-103 | when a positive skip passes every inbox message from the counterpart, the inbox page, the sentbox part and the conversation are all empty |
| Conversation.SentBetweenPagesIsOnNeitherPage | libraries/Textile/MailboxManager.ts:92-103 | a sent message created between a later page's newest inbox time and a first page's oldest inbox time is accepted by neither page's sentbox query |
| Conversation.FirstPageSentboxQuery | libraries/Textile/MailboxManager.ts:96-103 | an inbox page spanning times 100 down to 80 with limit 2 and skip 0 asks the sentbox for `to == friend and created_at >= 80`, with no upper bound |
| Conversation.LaterPageSentboxQuery | libraries/Textile/MailboxManager.ts:101-103 | the same page reached with skip 2 also asks for `created_at < 100` |
| Conversation.Merge | libraries/Textile/MailboxManager.ts:111-113 | the merge is ascending by creation time, a permutation of inbox plus sentbox, and keeps equal-time messages in concatenation order |
| Conversation.Conversation | libraries/Textile/MailboxManager.ts:86-113 | the merged conversation is sorted by creation time and is a permutation of the inbox page plus the sentbox part |
| Conversation.ConversationInvolvesFriend | libraries/Textile/MailboxManager.ts:76-113 | every message in the conversation is from or to the counterpart and is stored in one of the two partitions |
| Conversation.DecodeAll | libraries/Textile/MailboxManager.ts:115 | it succeeds iff every message decodes, then position by position; otherwise it fails with the error of some message that fails |
| Conversation.GetConversation | libraries/Textile/MailboxManager.ts:69-116 | it succeeds iff every merged message decodes; then element i is the decoding of merged message i, so it carries that message's id, sender, read time and creation time as `sent`, and the result is ascending by `sent`; otherwise it fails with the decode error of some merged message |
| MailboxManager.New | libraries/Textile/MailboxManager.ts:28-33 | a new manager keeps the sender address, is not initialised and has no listener on either channel |
| MailboxManager.Init | libraries/Textile/MailboxManager.ts:39-42 | the mailbox id becomes what setup returned, so the manager is initialised iff that id is non-empty; a rejected setup propagates and changes nothing |
| MailboxManager.InitTwiceKeepsLastId | libraries/Textile/MailboxManager.ts:39-42 | initialising again overwrites the id, and the manager stays initialised when both ids are non-empty |
| MailboxManager.BuildMessage | libraries/Textile/MailboxManager.ts:52-60 | the record is stamped with the sender address, recipient, given time, type and payload |
| MailboxManager.BuildMessageIgnoresSession | libraries/Textile/MailboxManager.ts:52-60 | the record depends on the manager only through its sender address, not on the mailbox id or listeners |
| MailboxManager.ListenTo | libraries/Textile/MailboxManager.ts:152-171 | listening subscribes the channel with a fresh callback, different from any callback held before, registered under the current mailbox id; the other channel is untouched and the invariant is kept |
| MailboxManager.Handle | libraries/Textile/MailboxManager.ts:129-144 | a closure deletes the callback's channel slot, keeps the sender address, mailbox id and the other channel's slot, and delivers nothing; any other event leaves the manager unchanged; `onMessage` is called iff the reply carries a message that decodes, and receives the decoded hub message |
| MailboxManager.SubscriptionAfterEvent | libraries/Textile/MailboxManager.ts:228-230 | after an event a channel is subscribed iff it was subscribed and the event is not a closure of a callback for that channel |
| MailboxManager.StaleClosureRemovesNewerListener | libraries/Textile/MailboxManager.ts:152-155 | after listening twice on a channel, the closure of the replaced first callback still leaves the channel unsubscribed |
| MailboxManager.ClosureIsIdempotent | libraries/Textile/MailboxManager.ts:132-135 | handling the same closure twice gives the same state as handling it once |
| MailboxManager.ListenThenCloseLifecycle | libraries/Textile/MailboxManager.ts:28-158 | from a new manager, listening subscribes only that channel, and that callback's closure leaves both channels unsubscribed |

## Left out

- `sendMessage` is not modelled. It only resolves the recipient key with
  `PublicKey.fromString`, encodes the text with `TextEncoder` and calls the
  hub's `sendMessage`, so it has no logic of its own.
- Hub calls are left out. `getThread('hubmail')` and `ThreadID.fromString` are
  not modelled. The mailbox thread is given directly as a `Mailbox` of two
  stored sequences. `find` is not modelled as a remote call, so the errors
  these calls can raise are not modelled either. `setupMailbox` is an input to
  `Init`. `watchInbox`/`watchSentbox` are modelled only as the `Watch` record
  `ListenTo` returns.
- The cryptographic and encoding primitives are opaque function fields of
  `Codec` with no laws. These are `Buffer` base64, `PrivateKey.decrypt`,
  `TextDecoder` and `JSON.parse`. `PrivateKey.fromString` on the manager's own
  identity is folded into `decrypt`. An encrypt/decrypt round trip therefore
  cannot be stated.
- Asynchrony is left out. Each push event is handled as one sequential step.
  The race between in-flight decodes and a re-registration is not modelled.
  A push whose body fails to decode gives no `onMessage` call. In the code that
  promise rejection goes unhandled.
- `Date.now()` in `buildMessage` becomes the parameter `now`.
- Timestamps are unbounded integers. The JavaScript number semantics of the
  comparator `a.created_at - b.created_at` are not modelled: no NaN and no
  precision loss. A `created_at` of `undefined` is not modelled, which is what
  the `|| 0` fallback covers.
- Numbers in a message's JSON payload are `JNumber` values holding mathematical
  reals. Rounding to IEEE doubles, `NaN` and infinities are not modelled,
  because the payload is only passed through and never computed on.
- `limit` and `skip` are natural numbers. Negative, fractional or NaN hints
  are not modelled. For a natural number, "truthy" and "greater than 0" agree.
- Sentbox order: the sentbox query names no order, so the store's default
  order is taken to be stored order. This only affects how equal-time sent
  messages are ordered after the stable merge.
- `Conversation.DecodeAll`: when several messages fail to decode, the contract
  says only that the error is that of some failing message. With
  `Promise.all`, the winning rejection depends on timing. The model itself
  picks the first failing position.
- `Conversation.GetConversation`: on failure, likewise, the contract names
  only the error of some merged message that fails to decode, for the same
  reason.
- `Conversation.BoundsBracketTimeOrderedWindow`: stated only for pages whose
  id order agrees with time. The code reads the bounds positionally, which
  `Conversation.BoundsArePositional` shows.
- The `textile` initialisation record is not modelled beyond the
  capabilities above. The `Vue` prototype wiring in `plugins/local/classLoader.ts`
  and the build configuration in `nuxt.config.js` are not part of this model.

=== FILE: conversation.dfy ===
/**
 * `getConversation`: the inbox partition is queried for the counterpart's
 * messages (newest id first, paginated), the inbox window's two ends give a
 * time range, the sentbox partition is queried for messages to the
 * counterpart within that range, and the two results are merged by creation
 * time and decoded in place.
 */
module Conversation {
  import opened Wrappers
  import opened Messages
  import opened Ordering
  import opened Store

  /** The caller's pagination hints. */
  datatype ConversationQuery = ConversationQuery(limit: Option<nat>, skip: Option<nat>)

  /** The two partitions of the mailbox thread, in stored order. */
  datatype Mailbox = Mailbox(inbox: seq<ThreadMessage>, sentbox: seq<ThreadMessage>)

  /** A hint as JavaScript's truthiness sees it: absent and `0` are both "not set". */
  function Truthy(v: Option<nat>): Option<nat>
  {
    if v.Some? && v.value != 0 then v else None
  }

  /** `query?.limit`, where the query itself may be absent. */
  function LimitOf(query: Option<ConversationQuery>): Option<nat>
  {
    if query.Some? then query.value.limit else None
  }

  /** `query?.skip`, where the query itself may be absent. */
  function SkipOf(query: Option<ConversationQuery>): Option<nat>
  {
    if query.Some? then query.value.skip else None
  }

  /** `query?.skip && query.skip > 0`. */
  predicate SkipIsPositive(query: Option<ConversationQuery>)
  {
    Truthy(SkipOf(query)).Some? && Truthy(SkipOf(query)).value > 0
  }

  /** `where('from').eq(friend).orderByIDDesc()`, then `limitTo` and `skipNum` when truthy. */
  function InboxQuery(friend: string, query: Option<ConversationQuery>): Query
  {
    Query([FromEq(friend)], Some(IdDescending), Truthy(LimitOf(query)), Truthy(SkipOf(query)))
  }

  /** `lastMessageTime` and `firstMessageTime`, taken from the two ends of the inbox window. */
  datatype Bounds = Bounds(first: int, last: int)

  function WindowBounds(window: seq<ThreadMessage>): Bounds
  {
    if |window| == 0 then Bounds(0, 0)
    else Bounds(first := window[|window| - 1].createdAt, last := window[0].createdAt)
  }

  /** `where('to').eq(friend).and('created_at').ge(first)`, plus `.lt(last)` when skip is positive. */
  function SentboxQuery(friend: string, query: Option<ConversationQuery>, b: Bounds): Query
  {
    var upper := if SkipIsPositive(query) then [CreatedLt(b.last)] else [];
    Query([ToEq(friend), CreatedGe(b.first)] + upper, None, None, None)
  }

  /** The inbox page `getConversation` fetches. */
  function InboxWindow(mb: Mailbox, friend: string, query: Option<ConversationQuery>): seq<ThreadMessage>
  {
    Find(InboxQuery(friend, query), mb.inbox)
  }

  /** The sentbox messages fetched for the time range of the inbox page. */
  function SentWindow(mb: Mailbox, friend: string, query: Option<ConversationQuery>): seq<ThreadMessage>
  {
    Find(SentboxQuery(friend, query, WindowBounds(InboxWindow(mb, friend, query))), mb.sentbox)
  }

  /**
   * `[...inbox, ...sentbox].sort((a, b) => a.created_at - b.created_at)`:
   * ascending by creation time, a permutation of the concatenation, and
   * stable, so messages created at the same time keep inbox-before-sentbox
   * order.
   */
  function Merge(inbox: seq<ThreadMessage>, sent: seq<ThreadMessage>): (r: seq<ThreadMessage>)
    ensures SortedBy(CreatedAscending, r)
    ensures multiset(r) == multiset(inbox) + multiset(sent)
    ensures forall e :: TiedWith(CreatedAscending, e, r) == TiedWith(CreatedAscending, e, inbox + sent)
  {
    SortIsStableEverywhere(CreatedAscending, inbox + sent);
    Sort(CreatedAscending, inbox + sent)
  }

  /** The merged, not yet decoded conversation. */
  function Conversation(mb: Mailbox, friend: string, query: Option<ConversationQuery>): (r: seq<ThreadMessage>)
    ensures SortedBy(CreatedAscending, r)
    ensures multiset(r) == multiset(InboxWindow(mb, friend, query)) + multiset(SentWindow(mb, friend, query))
  {
    Merge(InboxWindow(mb, friend, query), SentWindow(mb, friend, query))
  }

  /**
   * `Promise.all(messages.map(decodeMessage))`: every message decoded, in
   * place; one message that fails to decode rejects the whole call with that
   * message's error.
   */
  function DecodeAll(codec: Codec, ms: seq<ThreadMessage>): (r: Result<seq<DecryptedMessage>, DecodeError>)
    ensures r.Success? <==> forall i :: 0 <= i < |ms| ==> DecodeMessage(codec, ms[i]).Success?
    ensures r.Success? ==>
      |r.value| == |ms| && forall i :: 0 <= i < |ms| ==> DecodeMessage(codec, ms[i]) == Success(r.value[i])
    ensures r.Failure? ==> exists i :: 0 <= i < |ms| && DecodeMessage(codec, ms[i]) == Failure(r.error)
  {
    if |ms| == 0 then
      Success([])
    else
      match DecodeMessage(codec, ms[0])
      case Failure(e) => Failure(e)
      case Success(d) =>
        match DecodeAll(codec, ms[1..])
        case Failure(e) =>
          assert forall i :: 0 <= i < |ms| - 1 ==> ms[1..][i] == ms[i + 1];
          Failure(e)
        case Success(ds) => Success([d] + ds)
  }

  /** Decoded messages carry the metadata of the documents they came from, position by position. */
  lemma DecodedLineUp(codec: Codec, c: seq<ThreadMessage>, ds: seq<DecryptedMessage>)
    requires |ds| == |c|
    requires forall i :: 0 <= i < |c| ==> DecodeMessage(codec, c[i]) == Success(ds[i])
    ensures forall i :: 0 <= i < |c| ==> MetadataMatches(ds[i], c[i])
  {
    forall i | 0 <= i < |c|
      ensures MetadataMatches(ds[i], c[i])
    {
      assert DecodeMessage(codec, c[i]).Success?;
    }
  }

  /** `d` carries the id, sender, read time and creation time of `m`. */
  predicate MetadataMatches(d: DecryptedMessage, m: ThreadMessage)
  {
    d.id == m.id && d.from == m.from && d.readAt == m.readAt && d.sent == m.createdAt
  }

  /** Decoding in place keeps a creation-time order as a `sent` order. */
  lemma DecodedStaySorted(c: seq<ThreadMessage>, ds: seq<DecryptedMessage>)
    requires SortedBy(CreatedAscending, c)
    requires |ds| == |c|
    requires forall i :: 0 <= i < |c| ==> MetadataMatches(ds[i], c[i])
    ensures forall i, j :: 0 <= i < j < |ds| ==> ds[i].sent <= ds[j].sent
  {
    forall i, j | 0 <= i < j < |ds|
      ensures ds[i].sent <= ds[j].sent
    {
      assert MetadataMatches(ds[i], c[i]) && MetadataMatches(ds[j], c[j]);
      assert Precedes(CreatedAscending, c[i], c[j]);
    }
  }

  lemma EveryPositionIsEveryMember(codec: Codec, c: seq<ThreadMessage>)
    ensures (forall i :: 0 <= i < |c| ==> DecodeMessage(codec, c[i]).Success?)
        <==> (forall m :: m in c ==> DecodeMessage(codec, m).Success?)
  {
  }

  /**
   * `getConversation`: the decoded conversation. When every message decodes,
   * the result lines up with the merged sequence position by position and is
   * ascending by `sent`; otherwise it fails with the error of a merged
   * message that fails to decode.
   */
  function GetConversation(codec: Codec, mb: Mailbox, friend: string, query: Option<ConversationQuery>)
    : (r: Result<seq<DecryptedMessage>, DecodeError>)
    ensures r.Success? <==>
      forall m :: m in Conversation(mb, friend, query) ==> DecodeMessage(codec, m).Success?
    ensures r.Success? ==>
      && |r.value| == |Conversation(mb, friend, query)|
      && (forall i :: 0 <= i < |r.value| ==>
            DecodeMessage(codec, Conversation(mb, friend, query)[i]) == Success(r.value[i]))
      && (forall i :: 0 <= i < |r.value| ==> MetadataMatches(r.value[i], Conversation(mb, friend, query)[i]))
    ensures r.Success? ==> forall i, j :: 0 <= i < j < |r.value| ==> r.value[i].sent <= r.value[j].sent
    ensures r.Failure? ==>
      exists i :: 0 <= i < |Conversation(mb, friend, query)| &&
        DecodeMessage(codec, Conversation(mb, friend, query)[i]) == Failure(r.error)
  {
    var c := Conversation(mb, friend, query);
    var r := DecodeAll(codec, c);
    EveryPositionIsEveryMember(codec, c);
    if r.Success? then
      DecodedLineUp(codec, c, r.value);
      DecodedStaySorted(c, r.value);
      r
    else
      r
  }

  /** The inbox query keeps exactly the counterpart's messages. */
  lemma InboxQuerySelects(friend: string, query: Option<ConversationQuery>, m: ThreadMessage)
    ensures Matches(InboxQuery(friend, query), m) <==> m.from == friend
  {
    assert InboxQuery(friend, query).conds[0] == FromEq(friend);
  }

  /**
   * The inbox page: the counterpart's stored messages, newest id first, of
   * the size `skipNum` and `limitTo` leave, where a hint is applied only when
   * it is truthy.
   */
  lemma InboxWindowSpec(mb: Mailbox, friend: string, query: Option<ConversationQuery>)
    ensures forall m :: m in InboxWindow(mb, friend, query) ==> m in mb.inbox && m.from == friend
    ensures SortedBy(IdDescending, InboxWindow(mb, friend, query))
    ensures |InboxWindow(mb, friend, query)| ==
      WindowSize(|Select(InboxQuery(friend, query), mb.inbox)|, Truthy(SkipOf(query)), Truthy(LimitOf(query)))
    ensures exists a ::
      && multiset(a) == multiset(Select(InboxQuery(friend, query), mb.inbox))
      && SortedBy(IdDescending, a)
      && IsPageOf(InboxWindow(mb, friend, query), a, Truthy(SkipOf(query)))
  {
    forall m | m in InboxWindow(mb, friend, query)
      ensures m.from == friend
    {
      InboxQuerySelects(friend, query, m);
    }
  }

  /**
   * Document ids are unique, so the newest-first arrangement of the
   * counterpart's messages is unique and the page is its run after the
   * skipped ones: any newest-first arrangement `a` determines the page.
   */
  lemma InboxWindowIsDetermined(mb: Mailbox, friend: string, query: Option<ConversationQuery>, a: seq<ThreadMessage>)
    requires UniqueIds(mb.inbox)
    requires multiset(a) == multiset(Select(InboxQuery(friend, query), mb.inbox))
    requires SortedBy(IdDescending, a)
    ensures IsPageOf(InboxWindow(mb, friend, query), a, Truthy(SkipOf(query)))
  {
    InboxWindowSpec(mb, friend, query);
    var sel := Select(InboxQuery(friend, query), mb.inbox);
    var found :| && multiset(found) == multiset(sel)
                 && SortedBy(IdDescending, found)
                 && IsPageOf(InboxWindow(mb, friend, query), found, Truthy(SkipOf(query)));
    UniqueIdsLeaveNoTies(mb.inbox);
    SameMultisetSameMembers(found, sel);
    assert TiesAreEqual(IdDescending, found);
    SortedPermutationsAgree(IdDescending, found, a);
  }

  /**
   * Without a skip the page holds the newest messages: every message from
   * the counterpart left off the page has an id no higher than every id on it.
   */
  lemma FirstPageHoldsNewest(mb: Mailbox, friend: string, query: Option<ConversationQuery>)
    requires Truthy(SkipOf(query)).None?
    ensures forall m, x ::
      m in mb.inbox && m.from == friend && m !in InboxWindow(mb, friend, query) && x in InboxWindow(mb, friend, query)
      ==> LexLeq(m.id, x.id)
  {
    var w := InboxWindow(mb, friend, query);
    var sel := Select(InboxQuery(friend, query), mb.inbox);
    InboxWindowSpec(mb, friend, query);
    var a :| && multiset(a) == multiset(sel)
             && SortedBy(IdDescending, a)
             && IsPageOf(w, a, Truthy(SkipOf(query)));
    LeadingRunIsNewest(w, a, sel);
    forall m | m in mb.inbox && m.from == friend
      ensures m in sel
    {
      InboxQuerySelects(friend, query, m);
    }
  }

  /** A newest-first arrangement's unskipped page outranks everything after it. */
  lemma LeadingRunIsNewest(w: seq<ThreadMessage>, a: seq<ThreadMessage>, sel: seq<ThreadMessage>)
    requires multiset(a) == multiset(sel) && SortedBy(IdDescending, a) && IsPageOf(w, a, None)
    ensures forall m, x :: m in sel && m !in w && x in w ==> LexLeq(m.id, x.id)
  {
    assert w == a[..|w|];
    SameMultisetSameMembers(a, sel);
    PrefixPrecedesRest(IdDescending, a, |w|);
  }

  /** A missing query, a missing hint and a hint of `0` all fetch the same inbox page. */
  lemma FalsyHintsAreIgnored(friend: string, limit: Option<nat>, skip: Option<nat>)
    ensures InboxQuery(friend, Some(ConversationQuery(limit, skip)))
         == InboxQuery(friend, Some(ConversationQuery(Truthy(limit), Truthy(skip))))
    ensures InboxQuery(friend, Some(ConversationQuery(Some(0), Some(0)))) == InboxQuery(friend, None)
    ensures InboxQuery(friend, Some(ConversationQuery(None, None))) == InboxQuery(friend, None)
  {
  }

  /**
   * The bounds are read off the ends of the window: when the window happens
   * to be newest-first in time as well as in id, they bracket every
   * creation time in it.
   */
  lemma BoundsBracketTimeOrderedWindow(window: seq<ThreadMessage>)
    requires forall i, j :: 0 <= i < j < |window| ==> window[i].createdAt >= window[j].createdAt
    ensures forall m :: m in window ==>
      WindowBounds(window).first <= m.createdAt <= WindowBounds(window).last
  {
  }

  /**
   * The bounds are positional, not a minimum and maximum: in this
   * newest-id-first window the later-created message sits at the end, so
   * `lastMessageTime` is below its creation time.
   */
  lemma BoundsArePositional()
    ensures var w := [ThreadMessage("b", "f", "me", "", "", 5, None, 5),
                      ThreadMessage("a", "f", "me", "", "", 9, None, 9)];
      && SortedBy(IdDescending, w)
      && WindowBounds(w).last == 5
      && exists m :: m in w && m.createdAt > WindowBounds(w).last
  {
    var w := [ThreadMessage("b", "f", "me", "", "", 5, None, 5),
              ThreadMessage("a", "f", "me", "", "", 9, None, 9)];
    assert LexLeq(w[1].id, w[0].id);
    assert w[1] in w;
  }

  /**
   * The sentbox query accepts exactly the messages to the counterpart created
   * at or after `firstMessageTime`, and, only when skip is positive, before
   * `lastMessageTime`.
   */
  lemma SentboxQuerySelects(friend: string, query: Option<ConversationQuery>, b: Bounds, m: ThreadMessage)
    ensures Matches(SentboxQuery(friend, query, b), m) <==>
      && m.to == friend
      && m.createdAt >= b.first
      && (SkipIsPositive(query) ==> m.createdAt < b.last)
  {
    var q := SentboxQuery(friend, query, b);
    assert q.conds[0] == ToEq(friend) && q.conds[1] == CreatedGe(b.first);
    if SkipIsPositive(query) {
      assert q.conds[2] == CreatedLt(b.last);
    }
  }

  /** The sentbox part: stored messages to the counterpart inside the inbox page's time range. */
  lemma SentWindowSpec(mb: Mailbox, friend: string, query: Option<ConversationQuery>)
    ensures var b := WindowBounds(InboxWindow(mb, friend, query));
      forall m :: m in SentWindow(mb, friend, query) ==>
        && m in mb.sentbox
        && m.to == friend
        && m.createdAt >= b.first
        && (SkipIsPositive(query) ==> m.createdAt < b.last)
    ensures multiset(SentWindow(mb, friend, query))
         == multiset(Select(SentboxQuery(friend, query, WindowBounds(InboxWindow(mb, friend, query))), mb.sentbox))
  {
    var b := WindowBounds(InboxWindow(mb, friend, query));
    forall m | m in SentWindow(mb, friend, query)
      ensures m.to == friend && m.createdAt >= b.first && (SkipIsPositive(query) ==> m.createdAt < b.last)
    {
      SentboxQuerySelects(friend, query, b, m);
    }
  }

  /**
   * With no inbox page and no positive skip the sentbox range degenerates to
   * `created_at >= 0`: every message to the counterpart not dated before the
   * epoch.
   */
  lemma EmptyWindowOpensSentbox(mb: Mailbox, friend: string, query: Option<ConversationQuery>, m: ThreadMessage)
    requires |InboxWindow(mb, friend, query)| == 0
    requires !SkipIsPositive(query)
    ensures Matches(SentboxQuery(friend, query, WindowBounds(InboxWindow(mb, friend, query))), m)
        <==> m.to == friend && m.createdAt >= 0
  {
    SentboxQuerySelects(friend, query, WindowBounds(InboxWindow(mb, friend, query)), m);
  }

  /**
   * Paging past the end: when a positive skip passes every inbox message from
   * the counterpart, the inbox page is empty, both bounds are 0, and the
   * range `0 <= created_at < 0` admits no sent message, so the conversation
   * is empty however many messages were sent to the counterpart.
   */
  lemma PagingPastTheEndIsEmpty(mb: Mailbox, friend: string, query: Option<ConversationQuery>)
    requires SkipIsPositive(query)
    requires |Select(InboxQuery(friend, query), mb.inbox)| <= Truthy(SkipOf(query)).value
    ensures InboxWindow(mb, friend, query) == []
    ensures SentWindow(mb, friend, query) == []
    ensures Conversation(mb, friend, query) == []
  {
    var w := InboxWindow(mb, friend, query);
    assert |w| == 0;
    assert WindowBounds(w) == Bounds(0, 0);
    var sent := SentWindow(mb, friend, query);
    NothingBelowZero(mb, friend, query);
    assert sent == [];
    var c := Conversation(mb, friend, query);
    assert |multiset(c)| == 0;
  }

  lemma NothingBelowZero(mb: Mailbox, friend: string, query: Option<ConversationQuery>)
    requires SkipIsPositive(query)
    requires WindowBounds(InboxWindow(mb, friend, query)) == Bounds(0, 0)
    ensures |SentWindow(mb, friend, query)| == 0
  {
    var sent := SentWindow(mb, friend, query);
    SentWindowSpec(mb, friend, query);
    if |sent| > 0 {
      assert false;
    }
  }

  /** Every message of a conversation was sent by or to the counterpart. */
  lemma ConversationInvolvesFriend(mb: Mailbox, friend: string, query: Option<ConversationQuery>)
    ensures forall m :: m in Conversation(mb, friend, query) ==> m.from == friend || m.to == friend
    ensures forall m :: m in Conversation(mb, friend, query) ==> m in mb.inbox || m in mb.sentbox
  {
    InboxWindowSpec(mb, friend, query);
    SentWindowSpec(mb, friend, query);
    var inbox := InboxWindow(mb, friend, query);
    var sent := SentWindow(mb, friend, query);
    forall m | m in Conversation(mb, friend, query)
      ensures (m.from == friend || m.to == friend) && (m in mb.inbox || m in mb.sentbox)
    {
      assert m in multiset(inbox) + multiset(sent);
    }
  }

  /**
   * Time-range pagination leaves a gap: page one (no skip) reaches back to
   * its oldest inbox message, a later page (positive skip) reaches up to its
   * newest one, and a sent message created between those two times is
   * accepted by neither page's sentbox query.
   */
  lemma SentBetweenPagesIsOnNeitherPage(
    friend: string, page1: Option<ConversationQuery>, window1: seq<ThreadMessage>,
    page2: Option<ConversationQuery>, window2: seq<ThreadMessage>, m: ThreadMessage)
    requires SkipIsPositive(page2)
    requires WindowBounds(window2).last <= m.createdAt < WindowBounds(window1).first
    ensures !Matches(SentboxQuery(friend, page1, WindowBounds(window1)), m)
    ensures !Matches(SentboxQuery(friend, page2, WindowBounds(window2)), m)
  {
    SentboxQuerySelects(friend, page1, WindowBounds(window1), m);
    SentboxQuerySelects(friend, page2, WindowBounds(window2), m);
  }

  /**
   * An inbox page running from a message created at 100 down to one created
   * at 80, fetched with limit 2 and skip 0: the sentbox is asked for messages
   * to the counterpart created at or after 80, with no upper bound.
   */
  lemma FirstPageSentboxQuery(friend: string, window: seq<ThreadMessage>)
    requires |window| == 2 && window[0].createdAt == 100 && window[1].createdAt == 80
    ensures SentboxQuery(friend, Some(ConversationQuery(Some(2), Some(0))), WindowBounds(window))
         == Query([ToEq(friend), CreatedGe(80)], None, None, None)
  {
  }

  /** The same page reached with skip 2 also bounds the sentbox above at 100. */
  lemma LaterPageSentboxQuery(friend: string, window: seq<ThreadMessage>)
    requires |window| == 2 && window[0].createdAt == 100 && window[1].createdAt == 80
    ensures SentboxQuery(friend, Some(ConversationQuery(Some(2), Some(2))), WindowBounds(window))
         == Query([ToEq(friend), CreatedGe(80), CreatedLt(100)], None, None, None)
  {
  }
}

=== FILE: manager.dfy ===
/**
 * The `MailboxManager` object's own state: its sender address, the mailbox
 * id `init` obtains, and one optional listener slot per channel. A callback
 * built by `buildCallback` is modelled as a token minted by the manager,
 * together with the channel whose slot its closure handler deletes and the
 * caller's `onMessage` handler. Push events are handled one at a time.
 */
module MailboxManager {
  import opened Wrappers
  import opened Messages

  datatype Channel = Inbox | Sentbox

  /** Stands for the caller's `onMessage` function. */
  type HandlerId = nat

  /** A callback from `buildCallback`, told apart from every other by its token. */
  datatype Callback = Callback(token: nat, channel: Channel, onMessage: HandlerId)

  /** The manager's fields; `minted` counts the callbacks built so far. */
  datatype Manager = Manager(
    senderAddress: string,
    mailboxID: string,
    inbox: Option<Callback>,
    sentbox: Option<Callback>,
    minted: nat)

  /** The registration `watchInbox` / `watchSentbox` receives. */
  datatype Watch = Watch(channel: Channel, mailboxID: string, callback: Callback)

  /** The manager after `listenTo<Channel>`, and the registration it made. */
  datatype Listened = Listened(manager: Manager, watch: Watch)

  /** The hub's push event: `(reply, err)`, either of which may be undefined. */
  datatype Reply = Reply(message: Option<UserMessage>)
  datatype PushEvent = PushEvent(reply: Option<Reply>, err: Option<string>)

  /** An `onMessage` call: which handler, with which decoded message. */
  datatype Delivery = Delivery(onMessage: HandlerId, message: DecryptedMessage)

  /** The manager after one event, and the `onMessage` call the event caused, if any. */
  datatype Step = Step(manager: Manager, delivery: Option<Delivery>)

  /** The record `buildMessage` returns (`type` is a keyword here, so `kind`). */
  datatype OutgoingMessage = OutgoingMessage(sender: string, to: string, at: int, kind: string, payload: Json)

  function Slot(m: Manager, ch: Channel): Option<Callback>
  {
    match ch
    case Inbox => m.inbox
    case Sentbox => m.sentbox
  }

  function WithSlot(m: Manager, ch: Channel, v: Option<Callback>): (r: Manager)
    ensures Slot(r, ch) == v
    ensures forall other :: other != ch ==> Slot(r, other) == Slot(m, other)
    ensures r.senderAddress == m.senderAddress && r.mailboxID == m.mailboxID && r.minted == m.minted
  {
    match ch
    case Inbox => m.(inbox := v)
    case Sentbox => m.(sentbox := v)
  }

  /** `isSubscribed(type)`: a listener is registered for the channel. */
  predicate IsSubscribed(m: Manager, ch: Channel)
  {
    Slot(m, ch).Some?
  }

  /** `isInitialized()`. */
  predicate IsInitialized(m: Manager)
  {
    m.mailboxID != ""
  }

  /**
   * The invariant the transitions keep: a slot holds a callback built for its
   * own channel, every token in a slot has been minted, and the two slots
   * never hold the same callback.
   */
  predicate Valid(m: Manager)
  {
    && SlotFits(m, Inbox)
    && SlotFits(m, Sentbox)
    && (m.inbox.Some? && m.sentbox.Some? ==> m.inbox.value.token != m.sentbox.value.token)
  }

  predicate SlotFits(m: Manager, ch: Channel)
  {
    Slot(m, ch).Some? ==> Slot(m, ch).value.channel == ch && Slot(m, ch).value.token < m.minted
  }

  /** The constructor: no mailbox id, no listeners. */
  function New(senderAddress: string): (m: Manager)
    ensures m.senderAddress == senderAddress
    ensures !IsInitialized(m)
    ensures !IsSubscribed(m, Inbox) && !IsSubscribed(m, Sentbox)
    ensures Valid(m)
  {
    Manager(senderAddress, "", None, None, 0)
  }

  /**
   * `init()`: stores whatever `setupMailbox` resolved to; if it rejected, the
   * rejection propagates and the manager is left as it was.
   */
  function Init(m: Manager, setup: Result<string, string>): (r: Result<Manager, string>)
    ensures setup.Failure? ==> r == Failure(setup.error)
    ensures setup.Success? ==>
      && r.Success?
      && r.value.mailboxID == setup.value
      && (IsInitialized(r.value) <==> setup.value != "")
      && (forall ch :: Slot(r.value, ch) == Slot(m, ch))
      && r.value.senderAddress == m.senderAddress
    ensures r.Success? ==> (Valid(m) ==> Valid(r.value))
  {
    match setup
    case Failure(e) => Failure(e)
    case Success(id) => Success(m.(mailboxID := id))
  }

  /** `buildMessage(to, type, data)`, with the clock reading passed in as `now`. */
  function BuildMessage(m: Manager, to: string, kind: string, payload: Json, now: int): (r: OutgoingMessage)
    ensures r.sender == m.senderAddress && r.to == to && r.at == now
    ensures r.kind == kind && r.payload == payload
  {
    OutgoingMessage(m.senderAddress, to, now, kind, payload)
  }

  /**
   * `listenToInboxMessages` / `listenToSentboxMessages`: builds a fresh
   * callback, puts it in the channel's slot (replacing any earlier one), and
   * registers it under the current mailbox id.
   */
  function ListenTo(m: Manager, ch: Channel, onMessage: HandlerId): (r: Listened)
    ensures IsSubscribed(r.manager, ch)
    ensures Slot(r.manager, ch) == Some(r.watch.callback)
    ensures forall other :: other != ch ==> Slot(r.manager, other) == Slot(m, other)
    ensures r.watch.channel == ch && r.watch.mailboxID == m.mailboxID
    ensures r.watch.callback.channel == ch && r.watch.callback.onMessage == onMessage
    ensures r.manager.mailboxID == m.mailboxID && r.manager.senderAddress == m.senderAddress
    ensures Valid(m) ==> Valid(r.manager)
    ensures Valid(m) ==> forall c :: Slot(m, c).Some? ==> Slot(m, c).value != r.watch.callback
  {
    var cb := Callback(m.minted, ch, onMessage);
    var armed := WithSlot(m.(minted := m.minted + 1), ch, Some(cb));
    Listened(armed, Watch(ch, m.mailboxID, cb))
  }

  /** `reply === undefined && err === undefined`: the hub closed the subscription. */
  predicate IsClosure(ev: PushEvent)
  {
    ev.reply.None? && ev.err.None?
  }

  /**
   * The callback `cb` receiving `ev`. A closure runs the unsubscribe hook,
   * which deletes the slot of the callback's channel whatever it holds now.
   * A reply carrying a message is converted, decoded and, if decoding
   * succeeds, handed to `onMessage`; the slots are untouched. Anything else
   * is ignored.
   */
  function Handle(m: Manager, codec: Codec, cb: Callback, ev: PushEvent): (r: Step)
    ensures IsClosure(ev) ==> !IsSubscribed(r.manager, cb.channel) && r.delivery.None?
    ensures forall other :: other != cb.channel ==> Slot(r.manager, other) == Slot(m, other)
    ensures !IsClosure(ev) ==> r.manager == m
    ensures r.manager.senderAddress == m.senderAddress
    ensures r.manager.mailboxID == m.mailboxID && r.manager.minted == m.minted
    ensures r.delivery.Some? <==>
      && !IsClosure(ev)
      && ev.reply.Some? && ev.reply.value.message.Some?
      && DecodeUserMessage(codec, ev.reply.value.message.value).Success?
    ensures r.delivery.Some? ==>
      r.delivery.value == Delivery(cb.onMessage, DecodeUserMessage(codec, ev.reply.value.message.value).value)
    ensures Valid(m) ==> Valid(r.manager)
  {
    if IsClosure(ev) then
      Step(WithSlot(m, cb.channel, None), None)
    else if ev.reply.Some? && ev.reply.value.message.Some? then
      match DecodeUserMessage(codec, ev.reply.value.message.value)
      case Success(d) => Step(m, Some(Delivery(cb.onMessage, d)))
      case Failure(_) => Step(m, None)
    else
      Step(m, None)
  }

  /** After an event, a channel is subscribed iff it was and the event is not its own closure. */
  lemma SubscriptionAfterEvent(m: Manager, codec: Codec, cb: Callback, ev: PushEvent, ch: Channel)
    ensures IsSubscribed(Handle(m, codec, cb, ev).manager, ch)
        <==> IsSubscribed(m, ch) && !(IsClosure(ev) && cb.channel == ch)
  {
  }

  /**
   * A stale callback's closure removes a newer registration: listen twice on
   * a channel, and the closure of the first, replaced callback still leaves
   * the channel unsubscribed.
   */
  lemma StaleClosureRemovesNewerListener(m: Manager, codec: Codec, ch: Channel, h1: HandlerId, h2: HandlerId)
    ensures var first := ListenTo(m, ch, h1);
      var second := ListenTo(first.manager, ch, h2);
      && second.watch.callback != first.watch.callback
      && Slot(second.manager, ch) == Some(second.watch.callback)
      && !IsSubscribed(Handle(second.manager, codec, first.watch.callback, PushEvent(None, None)).manager, ch)
  {
    var first := ListenTo(m, ch, h1);
    assert first.watch.callback.token == m.minted;
  }

  /** Closing twice is closing once. */
  lemma ClosureIsIdempotent(m: Manager, codec: Codec, cb: Callback)
    ensures var once := Handle(m, codec, cb, PushEvent(None, None)).manager;
      Handle(once, codec, cb, PushEvent(None, None)).manager == once
  {
    var once := Handle(m, codec, cb, PushEvent(None, None)).manager;
    var twice := Handle(once, codec, cb, PushEvent(None, None)).manager;
    assert Slot(twice, Inbox) == Slot(once, Inbox) && Slot(twice, Sentbox) == Slot(once, Sentbox);
  }

  /**
   * From construction, listening on a channel and then receiving that
   * callback's closure ends unsubscribed, the other channel never touched.
   */
  lemma ListenThenCloseLifecycle(sender: string, codec: Codec, ch: Channel, other: Channel, h: HandlerId)
    requires other != ch
    ensures var l := ListenTo(New(sender), ch, h);
      && IsSubscribed(l.manager, ch)
      && !IsSubscribed(l.manager, other)
      && !IsSubscribed(Handle(l.manager, codec, l.watch.callback, PushEvent(None, None)).manager, ch)
      && !IsSubscribed(Handle(l.manager, codec, l.watch.callback, PushEvent(None, None)).manager, other)
  {
  }

  /** Re-initialising overwrites: the mailbox id is the last one `setupMailbox` gave. */
  lemma InitTwiceKeepsLastId(m: Manager, id1: string, id2: string)
    ensures Init(m, Success(id1)).Success?
    ensures Init(Init(m, Success(id1)).value, Success(id2)) == Success(m.(mailboxID := id2))
    ensures id1 != "" && id2 != "" ==>
      IsInitialized(Init(m, Success(id1)).value) && IsInitialized(Init(Init(m, Success(id1)).value, Success(id2)).value)
  {
  }

  /** `buildMessage` reads nothing of the manager but the sender address. */
  lemma BuildMessageIgnoresSession(m1: Manager, m2: Manager, to: string, kind: string, payload: Json, now: int)
    requires m1.senderAddress == m2.senderAddress
    ensures BuildMessage(m1, to, kind, payload, now) == BuildMessage(m2, to, kind, payload, now)
  {
  }
}

=== FILE: messages.dfy ===
/**
 * The three shapes a mailbox message takes:
 * - `UserMessage`, the hub's message as a push event carries it (raw bytes,
 *   camelCase fields);
 * - `ThreadMessage`, the thread-database document the store returns from a
 *   query (base64 strings, `_id`, `created_at`, `read_at`, `_mod`);
 * - `DecryptedMessage`, the application form handed to callers.
 * The byte transforms between them (base64, decryption with the local private
 * key, UTF-8 decoding, JSON parsing) are opaque capabilities bundled in `Codec`;
 * nothing is assumed of them beyond their types.
 */
module Messages {
  import opened Wrappers

  newtype byte = x: int | 0 <= x < 256
  type Bytes = seq<byte>

  /** What `JSON.parse` can return: the structured payload of a message body. */
  datatype Json =
    | JNull
    | JBool(b: bool)
    | JNumber(n: real)
    | JString(s: string)
    | JArray(items: seq<Json>)
    | JObject(fields: seq<(string, Json)>)

  /** The hub's message record (`UserMessage`). */
  datatype UserMessage = UserMessage(
    id: string,
    from: string,
    to: string,
    body: Bytes,
    signature: Bytes,
    createdAt: int,
    readAt: Option<int>)

  /** The thread-database document (`MessageFromThread`): `_id`, `created_at`, `read_at`, `_mod`. */
  datatype ThreadMessage = ThreadMessage(
    id: string,
    from: string,
    to: string,
    body: string,
    signature: string,
    createdAt: int,
    readAt: Option<int>,
    mod: int)

  /** The decrypted application form; the creation time is exposed as `sent`. */
  datatype DecryptedMessage = DecryptedMessage(
    body: Json,
    from: string,
    readAt: Option<int>,
    sent: int,
    id: string)

  /** Why decoding a message body rejects. */
  datatype DecodeError = DecryptionFailure | MalformedPayload

  /**
   * The foreign byte transforms: `Buffer` base64 in both directions, the
   * private key's `decrypt` (None when the key cannot open the body),
   * `TextDecoder.decode`, and `JSON.parse` (None when the text is not JSON).
   */
  datatype Codec = Codec(
    toBase64: Bytes -> string,
    fromBase64: string -> Bytes,
    decrypt: Bytes -> Option<Bytes>,
    utf8Decode: Bytes -> string,
    parseJson: string -> Option<Json>)

  /**
   * `decodeMessage`: opens the base64 body with the private key and parses it
   * as JSON; the metadata is projected field by field, `created_at` becoming
   * `sent`. A body the key cannot open rejects with `DecryptionFailure`, one
   * that is not JSON with `MalformedPayload`.
   */
  function DecodeMessage(codec: Codec, m: ThreadMessage): (r: Result<DecryptedMessage, DecodeError>)
    ensures r.Success? ==>
      && r.value.id == m.id
      && r.value.from == m.from
      && r.value.readAt == m.readAt
      && r.value.sent == m.createdAt
    ensures r.Success? ==>
      && codec.decrypt(codec.fromBase64(m.body)).Some?
      && codec.parseJson(codec.utf8Decode(codec.decrypt(codec.fromBase64(m.body)).value)) == Some(r.value.body)
    ensures r == Failure(DecryptionFailure) <==> codec.decrypt(codec.fromBase64(m.body)).None?
    ensures r == Failure(MalformedPayload) <==>
      (match codec.decrypt(codec.fromBase64(m.body))
       case None => false
       case Some(plain) => codec.parseJson(codec.utf8Decode(plain)).None?)
  {
    match codec.decrypt(codec.fromBase64(m.body))
    case None => Failure(DecryptionFailure)
    case Some(plain) =>
      match codec.parseJson(codec.utf8Decode(plain))
      case None => Failure(MalformedPayload)
      case Some(body) => Success(DecryptedMessage(body, m.from, m.readAt, m.createdAt, m.id))
  }

  /**
   * `userMessageToThread`: renames the hub's fields to the thread-database
   * naming, base64-encodes body and signature, and stamps `_mod` with the
   * creation time.
   */
  function UserMessageToThread(codec: Codec, u: UserMessage): (t: ThreadMessage)
    ensures t.mod == t.createdAt
    ensures t.id == u.id && t.from == u.from && t.to == u.to
    ensures t.createdAt == u.createdAt && t.readAt == u.readAt
    ensures t.body == codec.toBase64(u.body) && t.signature == codec.toBase64(u.signature)
  {
    ThreadMessage(
      id := u.id,
      from := u.from,
      to := u.to,
      body := codec.toBase64(u.body),
      signature := codec.toBase64(u.signature),
      createdAt := u.createdAt,
      readAt := u.readAt,
      mod := u.createdAt)
  }

  /** The push path's decode: a hub message converted to a document, then decoded. */
  function DecodeUserMessage(codec: Codec, u: UserMessage): Result<DecryptedMessage, DecodeError>
  {
    DecodeMessage(codec, UserMessageToThread(codec, u))
  }

  /**
   * Round trip on the metadata: whenever the body decodes, the decrypted form
   * carries the hub message's own id, sender, read time and creation time.
   */
  lemma TranscodeRoundTrip(codec: Codec, u: UserMessage)
    ensures DecodeUserMessage(codec, u).Success? ==>
      && DecodeUserMessage(codec, u).value.id == u.id
      && DecodeUserMessage(codec, u).value.from == u.from
      && DecodeUserMessage(codec, u).value.readAt == u.readAt
      && DecodeUserMessage(codec, u).value.sent == u.createdAt
  {
  }

  /**
   * Whether a pushed message decodes, and to which payload, is decided by its
   * body bytes alone: two hub messages with the same body decode alike up to
   * their metadata, whatever their signatures, recipients or times.
   */
  lemma DecodeDependsOnlyOnBody(codec: Codec, u1: UserMessage, u2: UserMessage)
    requires u1.body == u2.body
    ensures DecodeUserMessage(codec, u1).Success? <==> DecodeUserMessage(codec, u2).Success?
    ensures DecodeUserMessage(codec, u1).Success? ==>
      DecodeUserMessage(codec, u1).value.body == DecodeUserMessage(codec, u2).value.body
    ensures DecodeUserMessage(codec, u1).Failure? ==>
      DecodeUserMessage(codec, u1).error == DecodeUserMessage(codec, u2).error
  {
  }
}

=== FILE: ordering.dfy ===
/**
 * The two orders a conversation uses: the store's `orderByIDDesc` (document
 * ids compared as strings, code point by code point) and the merge's
 * ascending `created_at` comparator. `Sort` is a stable insertion sort, as
 * `Array.prototype.sort` is stable: elements the order ties keep their
 * relative positions.
 */
module Ordering {
  import opened Messages

  /** Lexicographic order on strings: a proper prefix comes first. */
  predicate LexLeq(a: string, b: string)
    decreases |a|
  {
    |a| == 0 || (|b| > 0 && (a[0] < b[0] || (a[0] == b[0] && LexLeq(a[1..], b[1..]))))
  }

  lemma {:induction false} LexLeqTotal(a: string, b: string)
    ensures LexLeq(a, b) || LexLeq(b, a)
    decreases |a|
  {
    if |a| > 0 && |b| > 0 && a[0] == b[0] {
      LexLeqTotal(a[1..], b[1..]);
    }
  }

  lemma {:induction false} LexLeqTransitive(a: string, b: string, c: string)
    requires LexLeq(a, b) && LexLeq(b, c)
    ensures LexLeq(a, c)
    decreases |a|
  {
    if |a| > 0 && |b| > 0 && |c| > 0 && a[0] == b[0] && b[0] == c[0] {
      LexLeqTransitive(a[1..], b[1..], c[1..]);
    }
  }

  /** Two ids the order ties are the same id: ids sort without ties. */
  lemma {:induction false} LexLeqAntisymmetric(a: string, b: string)
    requires LexLeq(a, b) && LexLeq(b, a)
    ensures a == b
    decreases |a|
  {
    if |a| > 0 {
      LexLeqAntisymmetric(a[1..], b[1..]);
      assert a == [a[0]] + a[1..];
      assert b == [b[0]] + b[1..];
    }
  }

  datatype Order = CreatedAscending | IdDescending

  /** `a` may stand before `b` in a sequence sorted by `o`. */
  predicate Precedes(o: Order, a: ThreadMessage, b: ThreadMessage)
  {
    match o
    case CreatedAscending => a.createdAt <= b.createdAt
    case IdDescending => LexLeq(b.id, a.id)
  }

  lemma PrecedesTotal(o: Order, a: ThreadMessage, b: ThreadMessage)
    ensures Precedes(o, a, b) || Precedes(o, b, a)
  {
    if o == IdDescending {
      LexLeqTotal(a.id, b.id);
    }
  }

  lemma PrecedesTransitive(o: Order, a: ThreadMessage, b: ThreadMessage, c: ThreadMessage)
    requires Precedes(o, a, b) && Precedes(o, b, c)
    ensures Precedes(o, a, c)
  {
    if o == IdDescending {
      LexLeqTransitive(c.id, b.id, a.id);
    }
  }

  /** The order ties `a` and `b`: equal creation times, or equal ids. */
  predicate Tied(o: Order, a: ThreadMessage, b: ThreadMessage)
  {
    Precedes(o, a, b) && Precedes(o, b, a)
  }

  predicate SortedBy(o: Order, s: seq<ThreadMessage>)
  {
    forall i, j :: 0 <= i < j < |s| ==> Precedes(o, s[i], s[j])
  }

  lemma HeadPrecedesAll(o: Order, x: ThreadMessage, s: seq<ThreadMessage>)
    requires SortedBy(o, s) && |s| > 0 && Precedes(o, x, s[0])
    ensures forall j :: 0 <= j < |s| ==> Precedes(o, x, s[j])
  {
    forall j | 0 < j < |s|
      ensures Precedes(o, x, s[j])
    {
      PrecedesTransitive(o, x, s[0], s[j]);
    }
  }

  lemma PrecedesEveryElement(o: Order, y: ThreadMessage, x: ThreadMessage, s: seq<ThreadMessage>, t: seq<ThreadMessage>)
    requires forall j :: 0 <= j < |s| ==> Precedes(o, y, s[j])
    requires Precedes(o, y, x)
    requires multiset(t) == multiset(s) + multiset{x}
    ensures forall j :: 0 <= j < |t| ==> Precedes(o, y, t[j])
  {
    forall j | 0 <= j < |t|
      ensures Precedes(o, y, t[j])
    {
      assert t[j] in multiset(t);
      if t[j] != x {
        assert t[j] in multiset(s);
        var k :| 0 <= k < |s| && s[k] == t[j];
      }
    }
  }

  lemma ConsKeepsOrder(o: Order, y: ThreadMessage, t: seq<ThreadMessage>)
    requires SortedBy(o, t)
    requires forall j :: 0 <= j < |t| ==> Precedes(o, y, t[j])
    ensures SortedBy(o, [y] + t)
  {
    var r := [y] + t;
    forall i, j | 0 <= i < j < |r|
      ensures Precedes(o, r[i], r[j])
    {
      assert r[j] == t[j - 1];
      if i > 0 {
        assert r[i] == t[i - 1];
      }
    }
  }

  /** Inserts `x` before the first element it may precede, so before all its ties. */
  function Insert(o: Order, x: ThreadMessage, s: seq<ThreadMessage>): (r: seq<ThreadMessage>)
    requires SortedBy(o, s)
    ensures SortedBy(o, r)
    ensures multiset(r) == multiset(s) + multiset{x}
  {
    if |s| == 0 then
      [x]
    else if Precedes(o, x, s[0]) then
      HeadPrecedesAll(o, x, s);
      ConsKeepsOrder(o, x, s);
      [x] + s
    else
      var t := Insert(o, x, s[1..]);
      PrecedesTotal(o, x, s[0]);
      PrecedesEveryElement(o, s[0], x, s[1..], t);
      ConsKeepsOrder(o, s[0], t);
      assert s == [s[0]] + s[1..];
      [s[0]] + t
  }

  /** A stable sort by `o`: sorted, and a permutation of its input. */
  function Sort(o: Order, s: seq<ThreadMessage>): (r: seq<ThreadMessage>)
    ensures SortedBy(o, r)
    ensures multiset(r) == multiset(s)
  {
    if |s| == 0 then
      []
    else
      assert s == [s[0]] + s[1..];
      Insert(o, s[0], Sort(o, s[1..]))
  }

  /** `[x]` when the order ties `x` with `e`, otherwise nothing. */
  function TieOf(o: Order, e: ThreadMessage, x: ThreadMessage): seq<ThreadMessage>
  {
    if Tied(o, e, x) then [x] else []
  }

  /** The elements of `s` the order ties with `e`, in their order in `s`. */
  function TiedWith(o: Order, e: ThreadMessage, s: seq<ThreadMessage>): seq<ThreadMessage>
  {
    if |s| == 0 then [] else TieOf(o, e, s[0]) + TiedWith(o, e, s[1..])
  }

  lemma TiedWithCons(o: Order, e: ThreadMessage, x: ThreadMessage, s: seq<ThreadMessage>)
    ensures TiedWith(o, e, [x] + s) == TieOf(o, e, x) + TiedWith(o, e, s)
  {
    assert ([x] + s)[1..] == s;
  }

  /** `x` and `y` are never both tied with `e` when the order cannot put `x` before `y`. */
  lemma TiesExcludeStrictOrder(o: Order, e: ThreadMessage, x: ThreadMessage, y: ThreadMessage)
    requires !Precedes(o, x, y)
    ensures TieOf(o, e, x) == [] || TieOf(o, e, y) == []
  {
    if Tied(o, e, x) && Tied(o, e, y) {
      PrecedesTransitive(o, x, e, y);
    }
  }

  lemma SwapWhenOneEmpty(a: seq<ThreadMessage>, b: seq<ThreadMessage>, c: seq<ThreadMessage>)
    requires a == [] || b == []
    ensures a + (b + c) == b + (a + c)
  {
  }

  lemma SortedTail(o: Order, s: seq<ThreadMessage>)
    requires SortedBy(o, s) && |s| > 0
    ensures SortedBy(o, s[1..])
  {
    forall i, j | 0 <= i < j < |s| - 1
      ensures Precedes(o, s[1..][i], s[1..][j])
    {
      assert s[1..][i] == s[i + 1] && s[1..][j] == s[j + 1];
    }
  }

  /** One step of `Insert`, as an equation. */
  lemma InsertStep(o: Order, x: ThreadMessage, s: seq<ThreadMessage>)
    requires SortedBy(o, s) && |s| > 0 && !Precedes(o, x, s[0])
    ensures SortedBy(o, s[1..])
    ensures Insert(o, x, s) == [s[0]] + Insert(o, x, s[1..])
  {
    SortedTail(o, s);
  }

  lemma {:induction false} InsertKeepsTies(o: Order, e: ThreadMessage, x: ThreadMessage, s: seq<ThreadMessage>)
    requires SortedBy(o, s)
    ensures TiedWith(o, e, Insert(o, x, s)) == TieOf(o, e, x) + TiedWith(o, e, s)
    decreases |s|
  {
    if |s| == 0 || Precedes(o, x, s[0]) {
      assert Insert(o, x, s) == [x] + s;
      TiedWithCons(o, e, x, s);
    } else {
      var head, tail := s[0], s[1..];
      InsertStep(o, x, s);
      var t := Insert(o, x, tail);
      InsertKeepsTies(o, e, x, tail);
      TiedWithCons(o, e, head, t);
      assert s == [head] + tail;
      TiedWithCons(o, e, head, tail);
      TiesExcludeStrictOrder(o, e, x, head);
      SwapWhenOneEmpty(TieOf(o, e, head), TieOf(o, e, x), TiedWith(o, e, tail));
    }
  }

  /**
   * Stability: for every element `e`, the elements tied with `e` appear in
   * the sorted sequence in exactly the order they had in the input.
   */
  lemma {:induction false} SortIsStable(o: Order, e: ThreadMessage, s: seq<ThreadMessage>)
    ensures TiedWith(o, e, Sort(o, s)) == TiedWith(o, e, s)
    decreases |s|
  {
    if |s| > 0 {
      SortIsStable(o, e, s[1..]);
      InsertKeepsTies(o, e, s[0], Sort(o, s[1..]));
      TiedWithCons(o, e, s[0], s[1..]);
      assert s == [s[0]] + s[1..];
    }
  }

  lemma SortIsStableEverywhere(o: Order, s: seq<ThreadMessage>)
    ensures forall e :: TiedWith(o, e, Sort(o, s)) == TiedWith(o, e, s)
  {
    forall e
      ensures TiedWith(o, e, Sort(o, s)) == TiedWith(o, e, s)
    {
      SortIsStable(o, e, s);
    }
  }

  /** The order ties no two different elements of `s`. */
  predicate TiesAreEqual(o: Order, s: seq<ThreadMessage>)
  {
    forall x, y :: x in s && y in s && Tied(o, x, y) ==> x == y
  }

  /** No two documents of `s` share an id, as `_id` is the store's key. */
  predicate UniqueIds(s: seq<ThreadMessage>)
  {
    forall i, j :: 0 <= i < j < |s| ==> s[i].id != s[j].id
  }

  /** With unique ids the id order ties nothing but an element with itself. */
  lemma UniqueIdsLeaveNoTies(s: seq<ThreadMessage>)
    requires UniqueIds(s)
    ensures TiesAreEqual(IdDescending, s)
  {
    forall x, y | x in s && y in s && Tied(IdDescending, x, y)
      ensures x == y
    {
      LexLeqAntisymmetric(x.id, y.id);
      var i :| 0 <= i < |s| && s[i] == x;
      var j :| 0 <= j < |s| && s[j] == y;
      assert i == j;
    }
  }

  /** Two sequences with the same multiset have the same length and members. */
  lemma SameMultisetSameMembers(a: seq<ThreadMessage>, b: seq<ThreadMessage>)
    requires multiset(a) == multiset(b)
    ensures |a| == |b|
    ensures forall x :: x in a <==> x in b
  {
    assert |multiset(a)| == |multiset(b)|;
    forall x
      ensures x in a <==> x in b
    {
      assert x in a <==> x in multiset(a);
      assert x in b <==> x in multiset(b);
    }
  }

  /** The first element of a sorted sequence may stand before any element of it. */
  lemma HeadPrecedesMembers(o: Order, a: seq<ThreadMessage>, x: ThreadMessage)
    requires SortedBy(o, a) && |a| > 0 && x in a && x != a[0]
    ensures Precedes(o, a[0], x)
  {
    var i :| 0 <= i < |a| && a[i] == x;
  }

  /**
   * A sorted arrangement is unique when the order ties no two different
   * elements: any two sorted permutations of the same elements are equal.
   */
  lemma {:induction false} SortedPermutationsAgree(o: Order, a: seq<ThreadMessage>, b: seq<ThreadMessage>)
    requires multiset(a) == multiset(b)
    requires SortedBy(o, a) && SortedBy(o, b)
    requires TiesAreEqual(o, a)
    ensures a == b
    decreases |a|
  {
    SameMultisetSameMembers(a, b);
    if |a| > 0 {
      if a[0] != b[0] {
        HeadPrecedesMembers(o, a, b[0]);
        HeadPrecedesMembers(o, b, a[0]);
        assert Tied(o, a[0], b[0]);
        assert false;
      }
      assert a == [a[0]] + a[1..];
      assert b == [b[0]] + b[1..];
      assert multiset(a[1..]) == multiset(a) - multiset{a[0]};
      assert multiset(b[1..]) == multiset(b) - multiset{b[0]};
      SortedTail(o, a);
      SortedTail(o, b);
      assert forall x :: x in a[1..] ==> x in a;
      SortedPermutationsAgree(o, a[1..], b[1..]);
    }
  }

  /** In a sorted sequence every element of a prefix precedes every element outside it. */
  lemma PrefixPrecedesRest(o: Order, a: seq<ThreadMessage>, k: nat)
    requires SortedBy(o, a) && k <= |a|
    ensures forall x, m :: x in a[..k] && m in a && m !in a[..k] ==> Precedes(o, x, m)
  {
    forall x, m | x in a[..k] && m in a && m !in a[..k]
      ensures Precedes(o, x, m)
    {
      var j :| 0 <= j < k && a[..k][j] == x;
      var i :| 0 <= i < |a| && a[i] == m;
      assert i >= k;
    }
  }
}

=== FILE: store.dfy ===
/**
 * The thread-database side of a query: a partition is a sequence of
 * documents, and `find` keeps the documents every condition accepts, puts
 * them in the query's order (or leaves them in stored order when it names
 * none), skips `skip` of them and keeps at most `limit`. The query-builder
 * chain `where(f).eq(v).and(g).ge(t)...` becomes a list of conditions.
 */
module Store {
  import opened Wrappers
  import opened Messages
  import opened Ordering

  /** One predicate of a query chain: `where('from').eq`, `where('to').eq`, `and('created_at').ge / .lt`. */
  datatype Cond =
    | FromEq(from: string)
    | ToEq(to: string)
    | CreatedGe(since: int)
    | CreatedLt(before: int)

  /** A query: its conditions, optional ordering, `limitTo` and `skipNum`. */
  datatype Query = Query(conds: seq<Cond>, order: Option<Order>, limit: Option<nat>, skip: Option<nat>)

  predicate Holds(c: Cond, m: ThreadMessage)
  {
    match c
    case FromEq(f) => m.from == f
    case ToEq(t) => m.to == t
    case CreatedGe(t) => m.createdAt >= t
    case CreatedLt(t) => m.createdAt < t
  }

  /** The conditions of a query are a conjunction. */
  predicate Matches(q: Query, m: ThreadMessage)
  {
    forall i :: 0 <= i < |q.conds| ==> Holds(q.conds[i], m)
  }

  /** The documents `q` accepts, in stored order, each as often as it is stored. */
  function Select(q: Query, s: seq<ThreadMessage>): (r: seq<ThreadMessage>)
    ensures forall m :: multiset(r)[m] == if Matches(q, m) then multiset(s)[m] else 0
    ensures forall m :: m in r <==> m in s && Matches(q, m)
    ensures |r| <= |s|
  {
    if |s| == 0 then
      []
    else
      assert s == [s[0]] + s[1..];
      (if Matches(q, s[0]) then [s[0]] else []) + Select(q, s[1..])
  }

  /** Puts documents in the query's order, or leaves stored order alone. */
  function Arrange(order: Option<Order>, s: seq<ThreadMessage>): (r: seq<ThreadMessage>)
    ensures multiset(r) == multiset(s)
    ensures order.Some? ==> SortedBy(order.value, r)
  {
    match order
    case None => s
    case Some(o) => Sort(o, s)
  }

  function Min(a: nat, b: nat): nat
  {
    if a <= b then a else b
  }

  /** How many of `available` documents survive skipping and limiting. */
  function WindowSize(available: nat, skip: Option<nat>, limit: Option<nat>): nat
  {
    var afterSkip := match skip case None => available case Some(n) => available - Min(n, available);
    match limit
    case None => afterSkip
    case Some(n) => Min(n, afterSkip)
  }

  /** Where the window starts in `available` documents once `skip` is applied. */
  function Offset(available: nat, skip: Option<nat>): (k: nat)
    ensures k <= available
  {
    match skip case None => 0 case Some(n) => Min(n, available)
  }

  /** `skipNum` then `limitTo`: a contiguous run of `s`, starting at the offset. */
  function Paginate(s: seq<ThreadMessage>, skip: Option<nat>, limit: Option<nat>): (r: seq<ThreadMessage>)
    ensures |r| == WindowSize(|s|, skip, limit)
    ensures Offset(|s|, skip) + |r| <= |s|
    ensures forall i :: 0 <= i < |r| ==> r[i] == s[Offset(|s|, skip) + i]
  {
    var rest := s[Offset(|s|, skip)..];
    match limit
    case None => rest
    case Some(n) => rest[..Min(n, |rest|)]
  }

  lemma PaginateContents(s: seq<ThreadMessage>, skip: Option<nat>, limit: Option<nat>)
    ensures forall m :: m in Paginate(s, skip, limit) ==> m in s
  {
    var r := Paginate(s, skip, limit);
    var k := Offset(|s|, skip);
    PaginateIsPage(s, skip, limit);
    assert s == s[..k] + r + s[k + |r|..];
  }

  lemma SliceKeepsOrder(o: Order, s: seq<ThreadMessage>, lo: nat, hi: nat)
    requires lo <= hi <= |s|
    requires SortedBy(o, s)
    ensures SortedBy(o, s[lo..hi])
  {
    var r := s[lo..hi];
    forall i, j | 0 <= i < j < |r|
      ensures Precedes(o, r[i], r[j])
    {
      assert r[i] == s[lo + i] && r[j] == s[lo + j];
    }
  }

  lemma PaginateKeepsOrder(o: Order, s: seq<ThreadMessage>, skip: Option<nat>, limit: Option<nat>)
    requires SortedBy(o, s)
    ensures SortedBy(o, Paginate(s, skip, limit))
  {
    var r := Paginate(s, skip, limit);
    var k := Offset(|s|, skip);
    assert r == s[k..k + |r|];
    SliceKeepsOrder(o, s, k, k + |r|);
  }

  lemma PaginateUnbounded(s: seq<ThreadMessage>)
    ensures Paginate(s, None, None) == s
  {
  }

  /** A page holds only documents of its source, keeps its order, and is all of it when unbounded. */
  lemma PaginateFacts(o: Option<Order>, s: seq<ThreadMessage>, skip: Option<nat>, limit: Option<nat>)
    requires o.Some? ==> SortedBy(o.value, s)
    ensures forall m :: m in Paginate(s, skip, limit) ==> m in s
    ensures o.Some? ==> SortedBy(o.value, Paginate(s, skip, limit))
    ensures skip.None? && limit.None? ==> Paginate(s, skip, limit) == s
  {
    PaginateContents(s, skip, limit);
    if o.Some? {
      PaginateKeepsOrder(o.value, s, skip, limit);
    }
    PaginateUnbounded(s);
  }

  /** `page` is the run of `a` that starts where `skip` leaves off. */
  predicate IsPageOf(page: seq<ThreadMessage>, a: seq<ThreadMessage>, skip: Option<nat>)
  {
    && Offset(|a|, skip) + |page| <= |a|
    && page == a[Offset(|a|, skip)..Offset(|a|, skip) + |page|]
  }

  lemma PaginateIsPage(s: seq<ThreadMessage>, skip: Option<nat>, limit: Option<nat>)
    ensures IsPageOf(Paginate(s, skip, limit), s, skip)
  {
    var r := Paginate(s, skip, limit);
    var k := Offset(|s|, skip);
    assert r == s[k..k + |r|];
  }

  /** A page of an ordered permutation of `selected` is a run of some ordered permutation of it. */
  lemma PageOfArrangement(
    selected: seq<ThreadMessage>, arranged: seq<ThreadMessage>, order: Option<Order>, skip: Option<nat>, limit: Option<nat>)
    requires multiset(arranged) == multiset(selected)
    requires order.Some? ==> SortedBy(order.value, arranged)
    ensures exists a ::
      && multiset(a) == multiset(selected)
      && (order.Some? ==> SortedBy(order.value, a))
      && IsPageOf(Paginate(arranged, skip, limit), a, skip)
  {
    PaginateIsPage(arranged, skip, limit);
  }

  /**
   * `client.find`: the accepted documents, in the query's order, with the
   * first `skip` dropped and at most `limit` kept.
   */
  function Find(q: Query, s: seq<ThreadMessage>): (r: seq<ThreadMessage>)
    ensures forall m :: m in r ==> m in s && Matches(q, m)
    ensures q.order.Some? ==> SortedBy(q.order.value, r)
    ensures |r| == WindowSize(|Select(q, s)|, q.skip, q.limit)
    ensures q.skip.None? && q.limit.None? ==> multiset(r) == multiset(Select(q, s))
    ensures exists a ::
      && multiset(a) == multiset(Select(q, s))
      && (q.order.Some? ==> SortedBy(q.order.value, a))
      && IsPageOf(r, a, q.skip)
  {
    var selected := Select(q, s);
    var arranged := Arrange(q.order, selected);
    SameMultisetSameMembers(arranged, selected);
    PaginateFacts(q.order, arranged, q.skip, q.limit);
    PageOfArrangement(selected, arranged, q.order, q.skip, q.limit);
    Paginate(arranged, q.skip, q.limit)
  }
}

=== FILE: wrappers.dfy ===
/** The two failure-carrying shapes the mailbox model uses. */
module Wrappers {

  /** A value that may be absent: an optional field or an `undefined`. */
  datatype Option<+T> = None | Some(value: T)

  /** The outcome of a step that can reject, carrying either a value or an error. */
  datatype Result<+R, +E> = Success(value: R) | Failure(error: E)
}
